=== FILE: README.md ===
# let-alse: a verified model of the `Wrapped<T>` chaining wrapper

The library wraps one value in an immutable `Wrapped<T>` object so that it can
be transformed and tested in a fluent call chain, Kotlin-style:

- `let` maps the value into a new wrapper;
- `also` hands the value to a callback and returns the same wrapper;
- `takeIf` / `takeUnless` return the same wrapper or `undefined`;
- `takeIfNotNil` returns the same wrapper or `undefined` by nullity;
- `orDefault` / `orElse` replace a nil value by a new wrapper;
- `getOrDefault` / `getOrElse` unwrap with a fallback;
- the `value` getter and the factory `wrap`.

The model has six modules:

- `Nullish` (nullish.dfy): `Nullable<T> = Nil | Val(v)`, the wrapped domain. `Nil` is
  both `null` and `undefined`. It also holds `IsNil` (`== null`) and `Coalesce` (`??`).
- `JsSemantics` (js_semantics.dfy): values that keep `null` and `undefined` apart. It proves
  that `== null` and `??` pick the same branch, and that merging the two into `Nil`
  changes neither operator's result.
- `Combinators` (combinators.dfy): pure functions of the stored value.
  - `takeIf`, `takeUnless`, `takeIfNotNil`, `orDefault` and `orElse` return an outcome:
    `Same` (the receiver itself), `Fresh(x)` (a new wrapper holding `x`) or `Absent`
    (`undefined`).
  - `getOrDefault` and `getOrElse` return the raw value.
  - `let` and `also` are not in this module. They are modelled only in `Wrapper` and `Chain`.
- `Wrapper` (wrapper.dfy): the class `Wrapped<T>` with a `const` slot. "Same instance" is
  `r == this`, "new instance" is `fresh(r)` and `undefined` is `null`. The methods
  `takeIf`, `takeUnless`, `takeIfNotNil`, `orDefault` and `orElse` realise the matching
  `Combinators` outcome. The contracts of `let`, `also` and `wrap` are stated directly.
- `Chain` (chain.dfy): chains `wrap(v)?.op1()?.op2()...` over instances with explicit
  identities. Each chain also keeps a trace of the callback invocations it makes.
  A chain can end with `getOrElse`, which returns the raw value and the trace.
- `Scenarios` (scenarios.dfy): the unit tests' concrete call sequences, stated as method
  contracts over the class and the chain.

## Model

| member | source | states |
|---|---|---|
| Nullish.Coalesce | src/index.ts:132-134 | `x ?? d` falls back to `d` exactly on the values `== null` calls nil, and otherwise yields the present value unchanged |
| JsSemantics.NullishCoalesce | src/index.ts:146-148 | on JS values `??` selects the default exactly when `== null` holds, so falsy present values are kept |
| JsSemantics.Collapse | src/index.ts:84-88 | merging `null` and `undefined` into `Nil` maps exactly the values loosely equal to `null` to nil, and keeps every other value |
| JsSemantics.CollapseKeepsCoalesce | src/index.ts:132-134 | `??` computed after the merge equals `??` computed on the JS value, for every value and default |
| JsSemantics.CollapseIdentifiesOnlyNullish | src/index.ts:84-120 | the merge identifies no two values except `null` and `undefined` |
| Combinators.TakeIf | src/index.ts:50-54 | `takeIf(p)` never constructs a wrapper, and returns the receiver iff `p(value)` |
| Combinators.TakeUnless | src/index.ts:67-71 | `takeUnless(p)` is `takeIf(p)` with receiver and `undefined` exchanged |
| Combinators.TakeIfNotNil | src/index.ts:84-88 | `takeIfNotNil()` equals `takeIf` with the predicate "not nil", and whatever it lets through is non-nil |
| Combinators.OrDefault | src/index.ts:100-104 | `orDefault(d)` is never `undefined` and returns the receiver iff the value is present. A new wrapper holds `d`. The readable value is never nil |
| Combinators.OrElse | src/index.ts:116-120 | `orElse(f)` has the outcome of `orDefault(f())` |
| Combinators.GetOrDefault | src/index.ts:132-134 | `getOrDefault(d)`, written with `??`, returns what `orDefault(d).value`, written with `== null`, reads |
| Combinators.GetOrElse | src/index.ts:146-148 | `getOrElse(f)` returns what `orElse(f).value` reads |
| Combinators.TakeIfTakeUnlessExclusive | src/index.ts:50-71 | for every value and predicate, exactly one of `takeIf`/`takeUnless` returns the receiver and the other `undefined` |
| Combinators.TakeUnlessIsTakeIfNot | src/index.ts:50-71 | `takeUnless(p)` equals `takeIf` of the negated predicate |
| Combinators.OrDefaultIdempotent | src/index.ts:100-104 | a second `orDefault`, with any default, returns the wrapper the first produced |
| Combinators.OrElseIdempotent | src/index.ts:116-120 | a second `orElse`, with any supplier, returns the wrapper the first produced |
| Wrapper.Wrapped.Let | src/index.ts:20-22 | `let(fn)` returns a newly allocated wrapper holding `fn(value)` |
| Wrapper.Wrapped.Also | src/index.ts:34-37 | `also(fn)` returns the receiver itself, value unchanged |
| Wrapper.Wrapped.TakeIf | src/index.ts:50-54 | `takeIf(p)` returns the receiver iff `p(value)`, `undefined` iff not |
| Wrapper.Wrapped.TakeUnless | src/index.ts:67-71 | `takeUnless(p)` returns the receiver iff `!p(value)`, `undefined` iff `p(value)` |
| Wrapper.Wrapped.TakeIfNotNil | src/index.ts:84-88 | `takeIfNotNil()` is `undefined` iff the value is nil; otherwise the receiver, with a non-nil value |
| Wrapper.Wrapped.OrDefault | src/index.ts:100-104 | on nil, a newly allocated wrapper holding `d`. Otherwise the receiver itself. The result's value is never nil |
| Wrapper.Wrapped.OrElse | src/index.ts:116-120 | on nil, a newly allocated wrapper holding `f()`. Otherwise the receiver itself. The result's value is never nil |
| Wrapper.Wrapped.GetOrDefault | src/index.ts:132-134 | the present value, or `d` on nil |
| Wrapper.Wrapped.GetOrElse | src/index.ts:146-148 | the present value, or `f()` on nil (that `f` runs only on nil is stated by `Chain.GetOrElse`) |
| Wrapper.Wrap | src/index.ts:155-168 | `wrap(v)` is a newly allocated wrapper whose `value` getter reads back `v` |
| Wrapper.GetOrDefaultMatchesOrDefault | src/index.ts:132-134 | on every wrapper, `getOrDefault(d)` equals `orDefault(d).value` |
| Wrapper.GetOrElseMatchesOrElse | src/index.ts:146-148 | on every wrapper, `getOrElse(f)` equals `orElse(f).value` |
| Wrapper.OrDefaultTwice | src/index.ts:100-104 | `w.orDefault(d).orDefault(d2)` is the very wrapper `w.orDefault(d)` returned, with a non-nil value |
| Chain.Step | src/index.ts:20-120 | one call allocates at most one instance, with the next unused identity. A filter link allocates nothing and yields the receiver iff it passes. A default link on a present value changes nothing. `let`, `also`, `takeIf` and `takeUnless` call their callback exactly once, with the receiver's value. `orElse` calls its supplier once on nil and never otherwise. `takeIfNotNil` and `orDefault` call nothing. A `let` link yields a new instance with the next identity, holding `fn(value)`. On nil, a default link yields a new instance with the next identity, holding its default |
| Chain.Run | src/index.ts:46-47 | a chain under `?.` stops at `undefined`. Starting from a state whose live instance has an identity below the counter, it returns either that instance or one it allocated, never another pre-existing one. Earlier callback calls stay recorded |
| Chain.FilterChain | src/index.ts:79-81 | a chain of `also`/`takeIf`/`takeUnless`/`takeIfNotNil` ends on the starting instance iff every link passes, and on `undefined` iff some link fails. It allocates nothing, and every callback sees the original value. When every link passes, exactly one call is recorded per `also`/`takeIf`/`takeUnless` link. When a link fails, exactly one call is recorded per such link up to and including the first failing one, and none after it |
| Chain.DefaultsOnPresent | src/index.ts:100-120 | on a present value, any chain of `orDefault`/`orElse` returns the starting instance, allocates nothing and calls no supplier |
| Chain.DefaultsOnNil | src/index.ts:100-120 | on nil, a chain of `orDefault`/`orElse` allocates exactly one instance, which holds the first link's default. A supplier is called at most once, and only when the first link is `orElse` |
| Chain.LetChain | src/index.ts:20-22 | a chain of `let` allocates one instance per link. It ends on the last one, holding the composed transforms. Each transform is called once, on the value the links before it produced |
| Chain.GetOrElse | src/index.ts:146-148 | `getOrElse(f)` returns the present value untouched without calling `f`. On nil it calls `f` exactly once and returns its value |
| Chain.GetOrElseLikeOrElse | src/index.ts:116-148 | `getOrElse(f)` returns the value `orElse(f)` holds and records the same supplier calls |
| Scenarios.LetDoubles | test/index.test.ts:5-9 | `new Wrapped(5).let(it => it * 2).value` is 10 |
| Scenarios.FiltersOnFive | test/index.test.ts:18-40 | on 5, `takeIf(>3)` and `takeUnless(<3)` return the wrapper, while `takeIf(<3)` and `takeUnless(>3)` return `undefined` |
| Scenarios.AlsoCallsWithFive | test/index.test.ts:11-16 | `also(spy)` on the wrapper of 5 calls `spy` exactly once, with 5, and yields the same instance |
| Scenarios.TakeIfNotNilOnFiveAndNull | test/index.test.ts:42-52 | `takeIfNotNil` keeps the wrapper of 5 and gives `undefined` for `null` |
| Scenarios.DefaultsOnNullAndFive | test/index.test.ts:54-100 | on `null` the four defaults give 10. On 5, `orDefault`/`orElse` return the same wrapper and the getters give 5 |
| Scenarios.WrapFive | test/index.test.ts:102-106 | `wrap(5).value` is 5 |

## Left out

- Side effects of callbacks, such as the `console.log` in `also`. Callbacks are pure total
  Dafny functions. `Wrapper.Wrapped.Also` takes a callback returning `()`. Which callbacks
  run, how often and with which argument is stated over the `Chain` trace (`Chain.Step`,
  `Chain.GetOrElse`), not on the class methods.
- JavaScript truthiness of a predicate's result in `takeIf`/`takeUnless`. The TypeScript
  signature requires the predicate to return a boolean, so predicates are `Nullable<T> -> bool`
  and no coercion is modelled.
- Chain identities: the chain lemmas assume the starting instance was allocated before the
  identity counter, as every instance from `wrap` or an earlier link is.
- Exceptions thrown by callbacks, which propagate unchanged to the caller. Total functions
  cannot throw.
- The difference between `null` and `undefined`. The wrapper never observes it, and
  `JsSemantics` proves the merge sound for both operators it uses. The `document.all`
  exception to loose equality is a host-object quirk and is not modelled.
- TypeScript's `NonNullable<T>` narrowing and `this` return typing. They are compile-time only.
  The model writes the wrapped type as `Nullable<T>` and a default as a plain `T`, so a
  default is non-nil by construction. The receiver that `takeIfNotNil`, `orDefault` and
  `orElse` retype is the same object with a non-nil value.
- Type-changing `let` links inside `Chain`. A chain there has a single wrapped type. The
  type-changing `let` is modelled by `Wrapper.Wrapped.Let`.
- Build configuration (vite.config.ts) and the compile-time type tests
  (test/index.test-d.ts). Neither has runtime behaviour.

=== FILE: chain.dfy ===
/** Fluent call chains `wrap(v)?.op1(...)?.op2(...)...`, the use the wrapper is
    written for (the examples at src/index.ts:46-47 and src/index.ts:79-81).

    Instances are given explicit identities drawn from a counter, so that
    "returns the receiver" and "constructs a wrapper" can be compared across a
    whole chain, and every callback invocation is recorded in a trace, so that
    which callbacks run, with which argument, is observable. Optional chaining
    stops the rest of the chain once a step yields `undefined`.
 */
module Chain {
  import opened Nullish
  import C = Combinators

  /** A wrapper instance: its identity and its stored value. */
  datatype Inst<+T> = Inst(id: nat, val: Nullable<T>)

  /** One callback invocation: a callback applied to a wrapped value (`let`,
      `also`, `takeIf`, `takeUnless`), or a supplier called (`orElse`). */
  datatype Call<+T> = Applied(arg: Nullable<T>) | Supplied

  /** One link of a chain over a single wrapped type. */
  datatype Op<!T> =
    | Let(fn: Nullable<T> -> Nullable<T>)
    | Also
    | TakeIf(p: Nullable<T> -> bool)
    | TakeUnless(p: Nullable<T> -> bool)
    | TakeIfNotNil
    | OrDefault(d: T)
    | OrElse(f: () -> T)
  {
    /** The links that can only return the receiver or `undefined`. */
    predicate IsFilter() {
      Also? || TakeIf? || TakeUnless? || TakeIfNotNil?
    }

    /** The links whose callback is applied to the wrapped value on every
        call. */
    predicate AppliesCallback() {
      Let? || Also? || TakeIf? || TakeUnless?
    }

    /** The links that supply a default for a nil value. */
    predicate IsDefault() {
      OrDefault? || OrElse?
    }

    /** A filter link lets a receiver holding `v` through. */
    predicate Passes(v: Nullable<T>)
      requires IsFilter()
    {
      match this
      case Also => true
      case TakeIf(p) => p(v)
      case TakeUnless(p) => !p(v)
      case TakeIfNotNil => !IsNil(v)
    }

    /** The value a default link supplies. */
    function Default(): T
      requires IsDefault()
    {
      match this
      case OrDefault(d) => d
      case OrElse(f) => f()
    }
  }

  /** The state of a chain: the current result (`Nil` once it is `undefined`),
      the next unused identity, and the callback invocations so far. */
  datatype State<T> = State(cur: Nullable<Inst<T>>, next: nat, calls: seq<Call<T>>) {
    /** Every live instance was allocated before the counter's current value,
        so an identity at or above `next` has never been handed out. */
    predicate Valid() {
      cur.Val? ==> cur.v.id < next
    }
  }

  /** The number of links in `ops` that apply a callback to the value. */
  function CallbackLinks<T>(ops: seq<Op<T>>): nat
    decreases |ops|
  {
    if |ops| == 0 then 0
    else (if ops[0].AppliesCallback() then 1 else 0) + CallbackLinks(ops[1..])
  }

  /** Every link of the filter chain `ops` lets a receiver holding `v` through. */
  predicate PassesAll<T>(ops: seq<Op<T>>, v: Nullable<T>)
    requires forall i :: 0 <= i < |ops| ==> ops[i].IsFilter()
  {
    forall i :: 0 <= i < |ops| ==> ops[i].Passes(v)
  }

  /** Turns a combinator outcome into the next chain state. */
  function Realise<T>(ret: C.Ret<T>, w: Inst<T>, next: nat, calls: seq<Call<T>>): State<T> {
    match ret
    case Same => State(Val(w), next, calls)
    case Absent => State(Nil, next, calls)
    case Fresh(x) => State(Val(Inst(next, x)), next + 1, calls)
  }

  /** One method call on the live instance `w`, allocated before `next`. */
  function Step<T>(op: Op<T>, w: Inst<T>, next: nat, calls: seq<Call<T>>): (s: State<T>)
    requires w.id < next
    ensures s.Valid()
    ensures s.next == next || s.next == next + 1
    ensures s.cur.Val? && s.cur.v != w ==> s.cur.v.id == next && s.next == next + 1
    ensures op.IsFilter() ==> s.next == next && (s.cur == Val(w) <==> op.Passes(w.val))
    ensures op.IsFilter() ==> (s.cur.Nil? <==> !op.Passes(w.val))
    ensures op.IsDefault() ==> s.cur.Val? && !IsNil(s.cur.v.val)
    ensures op.IsDefault() && !IsNil(w.val) ==> s == State(Val(w), next, calls)
    ensures |calls| <= |s.calls| <= |calls| + 1 && s.calls[..|calls|] == calls
    ensures op.AppliesCallback() ==> s.calls == calls + [Applied(w.val)]
    ensures op.OrElse? ==> s.calls == if IsNil(w.val) then calls + [Supplied] else calls
    ensures op.TakeIfNotNil? || op.OrDefault? ==> s.calls == calls
    ensures op.Let? ==> s.cur == Val(Inst(next, op.fn(w.val))) && s.next == next + 1
    ensures op.IsDefault() && IsNil(w.val) ==> s.cur == Val(Inst(next, Val(op.Default()))) && s.next == next + 1
  {
    match op
    case Let(fn) => State(Val(Inst(next, fn(w.val))), next + 1, calls + [Applied(w.val)])
    case Also => State(Val(w), next, calls + [Applied(w.val)])
    case TakeIf(p) => Realise(C.TakeIf(w.val, p), w, next, calls + [Applied(w.val)])
    case TakeUnless(p) => Realise(C.TakeUnless(w.val, p), w, next, calls + [Applied(w.val)])
    case TakeIfNotNil => Realise(C.TakeIfNotNil(w.val), w, next, calls)
    case OrDefault(d) => Realise(C.OrDefault(w.val, d), w, next, calls)
    case OrElse(f) =>
      Realise(C.OrElse(w.val, f), w, next, if IsNil(w.val) then calls + [Supplied] else calls)
  }

  /** Runs the links in order under optional chaining. The chain never hands
      back a pre-existing instance other than the one it started from: any
      other result was constructed by the chain itself. */
  function Run<T>(ops: seq<Op<T>>, s: State<T>): (r: State<T>)
    requires s.Valid()
    ensures r.Valid()
    ensures r.next >= s.next
    ensures |r.calls| >= |s.calls| && r.calls[..|s.calls|] == s.calls
    ensures s.cur.Nil? ==> r == s
    ensures r.cur.Val? ==> r.cur == s.cur || s.next <= r.cur.v.id < r.next
    ensures r.cur.Val? && r.cur.v.id < s.next ==> r.cur == s.cur
    decreases |ops|
  {
    if |ops| == 0 then s
    else match s.cur
      case Nil => s
      case Val(w) => Run(ops[1..], Step(ops[0], w, s.next, s.calls))
  }

  /** A chain of `also`, `takeIf`, `takeUnless` and `takeIfNotNil` links returns
      the very instance it started from when every link lets it through, and
      `undefined` otherwise; it constructs nothing, and every callback it calls
      sees the original value. Callbacks run for every link up to and including
      the first one that fails, and for no link after it. */
  lemma {:induction false} FilterChain<T>(ops: seq<Op<T>>, w: Inst<T>, next: nat, calls: seq<Call<T>>)
    requires w.id < next
    requires forall i :: 0 <= i < |ops| ==> ops[i].IsFilter()
    ensures var r := Run(ops, State(Val(w), next, calls));
      && r.next == next
      && (r.cur == Val(w) <==> forall i :: 0 <= i < |ops| ==> ops[i].Passes(w.val))
      && (r.cur.Nil? <==> exists i :: 0 <= i < |ops| && !ops[i].Passes(w.val))
      && (forall j :: |calls| <= j < |r.calls| ==> r.calls[j] == Applied(w.val))
      && (r.cur == Val(w) ==> |r.calls| == |calls| + CallbackLinks(ops))
      && forall k :: 0 <= k < |ops| && !ops[k].Passes(w.val) && PassesAll(ops[..k], w.val) ==>
           |r.calls| == |calls| + CallbackLinks(ops[..k + 1])
    decreases |ops|
  {
    if |ops| > 0 {
      var s := Step(ops[0], w, next, calls);
      if s.cur.Nil? {
        assert !ops[0].Passes(w.val);
        assert ops[..1][1..] == [];
      } else {
        assert s.cur == Val(w);
        FilterChain(ops[1..], w, next, s.calls);
        forall i | 0 <= i < |ops[1..]| ensures ops[1..][i].Passes(w.val) == ops[i + 1].Passes(w.val) {
        }
        if exists i :: 0 <= i < |ops| && !ops[i].Passes(w.val) {
          var i :| 0 <= i < |ops| && !ops[i].Passes(w.val);
          assert i > 0 && !ops[1..][i - 1].Passes(w.val);
        }
        forall k | 0 <= k < |ops| && !ops[k].Passes(w.val) && PassesAll(ops[..k], w.val)
          ensures |Run(ops, State(Val(w), next, calls)).calls| == |calls| + CallbackLinks(ops[..k + 1])
        {
          assert k > 0 && !ops[1..][k - 1].Passes(w.val);
          assert ops[..k][1..] == ops[1..][..k - 1];
          assert ops[..k + 1][1..] == ops[1..][..k];
          assert ops[..k + 1][0] == ops[0];
        }
      }
    }
  }

  /** Defaults on a present value: a chain of `orDefault` and `orElse` links
      returns the very instance it started from, constructs nothing and calls
      no supplier. */
  lemma {:induction false} DefaultsOnPresent<T>(ops: seq<Op<T>>, w: Inst<T>, next: nat, calls: seq<Call<T>>)
    requires w.id < next
    requires forall i :: 0 <= i < |ops| ==> ops[i].IsDefault()
    requires !IsNil(w.val)
    ensures Run(ops, State(Val(w), next, calls)) == State(Val(w), next, calls)
    decreases |ops|
  {
    if |ops| > 0 {
      DefaultsOnPresent(ops[1..], w, next, calls);
    }
  }

  /** Defaults on a nil value: only the first `orDefault`/`orElse` link acts.
      The chain ends on one newly constructed instance holding the first
      link's default, and a supplier is called at most once, only when the
      first link is `orElse`. */
  lemma {:induction false} DefaultsOnNil<T>(ops: seq<Op<T>>, w: Inst<T>, next: nat, calls: seq<Call<T>>)
    requires w.id < next
    requires |ops| > 0
    requires forall i :: 0 <= i < |ops| ==> ops[i].IsDefault()
    requires IsNil(w.val)
    ensures var r := Run(ops, State(Val(w), next, calls));
      && r.cur == Val(Inst(next, Val(ops[0].Default())))
      && r.next == next + 1
      && r.calls == if ops[0].OrElse? then calls + [Supplied] else calls
  {
    var s := Step(ops[0], w, next, calls);
    assert s.cur == Val(Inst(next, Val(ops[0].Default())));
    DefaultsOnPresent(ops[1..], s.cur.v, s.next, s.calls);
  }

  /** The value produced by a chain of `let` links applied to `v`. */
  function Pipe<T>(ops: seq<Op<T>>, v: Nullable<T>): Nullable<T>
    requires forall i :: 0 <= i < |ops| ==> ops[i].Let?
    decreases |ops|
  {
    if |ops| == 0 then v else Pipe(ops[1..], ops[0].fn(v))
  }

  /** A chain of `let` links constructs one instance per link, ends on the
      last one, which holds the composition of the transforms, and calls each
      transform exactly once, the `k`-th on the value the first `k` links
      produced. */
  lemma {:induction false} LetChain<T>(ops: seq<Op<T>>, w: Inst<T>, next: nat, calls: seq<Call<T>>)
    requires w.id < next
    requires |ops| > 0
    requires forall i :: 0 <= i < |ops| ==> ops[i].Let?
    ensures var r := Run(ops, State(Val(w), next, calls));
      && r.cur == Val(Inst(next + |ops| - 1, Pipe(ops, w.val)))
      && r.next == next + |ops|
      && |r.calls| == |calls| + |ops|
      && forall k :: 0 <= k < |ops| ==> r.calls[|calls| + k] == Applied(Pipe(ops[..k], w.val))
    decreases |ops|
  {
    var s := Step(ops[0], w, next, calls);
    if |ops| > 1 {
      LetChain(ops[1..], s.cur.v, s.next, s.calls);
      forall k | 1 <= k < |ops|
        ensures Pipe(ops[..k], w.val) == Pipe(ops[1..][..k - 1], ops[0].fn(w.val))
      {
        assert ops[..k][1..] == ops[1..][..k - 1];
      }
    }
  }

  /** `getOrElse(f)` ending a chain on the live instance `w`: the raw value and
      the trace. The supplier runs only when the value is nil, and then once. */
  function GetOrElse<T>(w: Inst<T>, f: () -> T, calls: seq<Call<T>>): (r: (T, seq<Call<T>>))
    ensures |calls| <= |r.1| <= |calls| + 1 && r.1[..|calls|] == calls
    ensures |r.1| == |calls| + 1 <==> IsNil(w.val)
    ensures |r.1| == |calls| + 1 ==> r.1[|calls|] == Supplied
    ensures !IsNil(w.val) ==> Val(r.0) == w.val
    ensures IsNil(w.val) ==> r.0 == f()
  {
    match w.val
    case Val(v) => (v, calls)
    case Nil => (f(), calls + [Supplied])
  }

  /** `getOrElse(f)` returns the value `orElse(f)` would hold and records the
      same supplier calls. */
  lemma GetOrElseLikeOrElse<T>(w: Inst<T>, f: () -> T, next: nat, calls: seq<Call<T>>)
    requires w.id < next
    ensures var s := Step(OrElse(f), w, next, calls);
      && s.cur == Val(Inst(s.cur.v.id, Val(GetOrElse(w, f, calls).0)))
      && s.calls == GetOrElse(w, f, calls).1
  {
  }
}

=== FILE: combinators.dfy ===
/** The combinators of `Wrapped<T>` (src/index.ts) as pure functions of the
    receiver's stored value.

    `takeIf`, `takeUnless`, `takeIfNotNil`, `orDefault` and `orElse` either
    return the receiver itself, construct a new wrapper holding some value, or
    return `undefined`; `Ret` names these three outcomes so that identity can be
    reasoned about without a heap. The class in module `Wrapper` and the chain
    evaluator in module `Chain` both realise these outcomes. `getOrDefault` and
    `getOrElse` return the raw value. `let` and `also` are modelled only in
    `Wrapper` and `Chain`.
 */
module Combinators {
  import opened Nullish

  /** The outcome of a combinator relative to its receiver. */
  datatype Ret<+T> = Same | Fresh(val: Nullable<T>) | Absent

  /** The value readable through an outcome that is not `undefined`. */
  function Through<T>(r: Ret<T>, receiver: Nullable<T>): Nullable<T>
    requires !r.Absent?
  {
    match r
    case Same => receiver
    case Fresh(x) => x
  }

  /** Swaps "the receiver" and "undefined"; a new wrapper stays as it is. */
  function Flip<T>(r: Ret<T>): Ret<T> {
    match r
    case Same => Absent
    case Absent => Same
    case Fresh(_) => r
  }

  /** `takeIf(p)`: the receiver when `p` holds of its value, `undefined`
      otherwise; it never constructs a wrapper. */
  function TakeIf<T>(v: Nullable<T>, p: Nullable<T> -> bool): (r: Ret<T>)
    ensures !r.Fresh?
    ensures r.Same? <==> p(v)
  {
    if p(v) then Same else Absent
  }

  /** `takeUnless(p)` is `takeIf(p)` with its two outcomes exchanged. */
  function TakeUnless<T>(v: Nullable<T>, p: Nullable<T> -> bool): (r: Ret<T>)
    ensures r == Flip(TakeIf(v, p))
  {
    if p(v) then Absent else Same
  }

  /** `takeIfNotNil()` is `takeIf` with the predicate "is not nil", and what it
      lets through is never nil. */
  function TakeIfNotNil<T>(v: Nullable<T>): (r: Ret<T>)
    ensures r == TakeIf(v, (x: Nullable<T>) => !IsNil(x))
    ensures r.Same? ==> !IsNil(v)
  {
    if IsNil(v) then Absent else Same
  }

  /** `orDefault(d)`: never `undefined`, the receiver exactly when its value is
      present, and what can be read through the result is never nil. */
  function OrDefault<T>(v: Nullable<T>, d: T): (r: Ret<T>)
    ensures !r.Absent?
    ensures r.Same? <==> !IsNil(v)
    ensures r.Fresh? ==> r.val == Val(d)
    ensures !IsNil(Through(r, v))
  {
    if IsNil(v) then Fresh(Val(d)) else Same
  }

  /** `orElse(f)` behaves as `orDefault` given the supplier's value. That the
      supplier is consulted only on the nil branch is recorded in `Chain`. */
  function OrElse<T>(v: Nullable<T>, f: () -> T): (r: Ret<T>)
    ensures r == OrDefault(v, f())
  {
    if IsNil(v) then Fresh(Val(f())) else Same
  }

  /** `getOrDefault(d)`, written with `??`, unwraps exactly what `orDefault(d)`,
      written with `== null`, would make readable. */
  function GetOrDefault<T>(v: Nullable<T>, d: T): (r: T)
    ensures Val(r) == Through(OrDefault(v, d), v)
  {
    Coalesce(v, d)
  }

  /** `getOrElse(f)` unwraps exactly what `orElse(f)` would make readable. */
  function GetOrElse<T>(v: Nullable<T>, f: () -> T): (r: T)
    ensures Val(r) == Through(OrElse(v, f), v)
  {
    Coalesce(v, f())
  }

  /** For every value and predicate exactly one of `takeIf` and `takeUnless`
      returns the receiver, and the other returns `undefined`. */
  lemma TakeIfTakeUnlessExclusive<T>(v: Nullable<T>, p: Nullable<T> -> bool)
    ensures TakeIf(v, p).Same? <==> TakeUnless(v, p).Absent?
    ensures TakeIf(v, p).Absent? <==> TakeUnless(v, p).Same?
  {
  }

  /** `takeUnless(p)` is `takeIf` of the negated predicate. */
  lemma TakeUnlessIsTakeIfNot<T>(v: Nullable<T>, p: Nullable<T> -> bool)
    ensures TakeUnless(v, p) == TakeIf(v, (x: Nullable<T>) => !p(x))
  {
  }

  /** A second `orDefault`, with any default, returns the wrapper the first one
      produced. */
  lemma OrDefaultIdempotent<T>(v: Nullable<T>, d: T, d': T)
    ensures OrDefault(Through(OrDefault(v, d), v), d') == Same
  {
  }

  /** A second `orElse`, with any supplier, returns the wrapper the first one
      produced. */
  lemma OrElseIdempotent<T>(v: Nullable<T>, f: () -> T, g: () -> T)
    ensures OrElse(Through(OrElse(v, f), v), g) == Same
  {
  }
}

=== FILE: js_semantics.dfy ===
/** The two JavaScript operators the wrapper uses to detect absence, over values
    that still distinguish `null` from `undefined`, and the proof that collapsing
    both into `Nullish.Nil` loses nothing either operator can observe.
 */
module JsSemantics {
  import opened Nullish

  /** A JavaScript value of type `T | null | undefined`. */
  datatype JsValue<+T> = Null | Undefined | Present(v: T)

  /** Loose equality against `null` (ECMAScript's IsLooselyEqual): `null == null`
      and `undefined == null` hold, and no other value is loosely equal to `null`,
      however falsy it is. */
  predicate LooseEqualsNull<T>(x: JsValue<T>) {
    match x
    case Null => true
    case Undefined => true
    case Present(_) => false
  }

  /** `x ?? d`: the right operand is used when the left one is `null` or
      `undefined`, which is the same choice as `x == null`. */
  function NullishCoalesce<T>(x: JsValue<T>, d: T): (r: T)
    ensures r == if LooseEqualsNull(x) then d else x.v
  {
    match x
    case Null => d
    case Undefined => d
    case Present(v) => v
  }

  /** Forgets the difference between `null` and `undefined`. */
  function Collapse<T>(x: JsValue<T>): (r: Nullable<T>)
    ensures IsNil(r) <==> LooseEqualsNull(x)
    ensures !IsNil(r) ==> x == Present(r.v)
  {
    if x.Present? then Val(x.v) else Nil
  }

  /** Reading `??` on the collapsed value gives what JavaScript computes on the
      original one, for every value and every default. */
  lemma CollapseKeepsCoalesce<T>(x: JsValue<T>, d: T)
    ensures Coalesce(Collapse(x), d) == NullishCoalesce(x, d)
  {
  }

  /** The only values the collapse identifies are `null` and `undefined`: two
      values with the same image are equal or both nullish. */
  lemma CollapseIdentifiesOnlyNullish<T>(x: JsValue<T>, y: JsValue<T>)
    requires Collapse(x) == Collapse(y)
    ensures x == y || (LooseEqualsNull(x) && LooseEqualsNull(y))
  {
  }
}

=== FILE: nullish.dfy ===
/** Possibly-absent values, as the wrapper sees them.

    Every nullity check of the wrapper (`== null` in `takeIfNotNil`, `orDefault`
    and `orElse`; `??` in `getOrDefault` and `getOrElse`) treats `null` and
    `undefined` alike, so one `Nil` stands for both here. The module
    `JsSemantics` shows that this collapse preserves both operators.
 */
module Nullish {

  /** A value of the wrapped type: absent (`null` or `undefined`) or present.
      Falsy values such as `0`, `""` and `false` are present. */
  datatype Nullable<+T> = Nil | Val(v: T)

  /** The loose test `x == null`. */
  predicate IsNil<T>(x: Nullable<T>) {
    x.Nil?
  }

  /** The nullish-coalescing operator `x ?? d`: it falls back to `d` on exactly
      the values that `x == null` calls nil, and otherwise yields the present
      value untouched. */
  function Coalesce<T>(x: Nullable<T>, d: T): (r: T)
    ensures IsNil(x) ==> r == d
    ensures !IsNil(x) ==> Val(r) == x
  {
    match x
    case Nil => d
    case Val(v) => v
  }
}

=== FILE: scenarios.dfy ===
/** The concrete call sequences of the repository's unit tests
    (test/index.test.ts), stated as method contracts over the class model and
    the chain model. Numbers are wrapped as `Nullable<int>`; `Nil` plays the
    `null` the tests wrap.
 */
module Scenarios {
  import opened Nullish
  import opened Wrapper
  import Chain

  /** `x => x * 2` on a present number. On nil the model's choice is to return
      nil, whereas JavaScript's `null * 2` is `0`; the tests only double `5`. */
  function Double(x: Nullable<int>): Nullable<int> {
    match x
    case Nil => Nil
    case Val(n) => Val(n * 2)
  }

  /** `new Wrapped(5).let(it => it * 2).value` is `10`. */
  method LetDoubles() returns (result: Nullable<int>)
    ensures result == Val(10)
  {
    var wrapped := new Wrapped(Val(5));
    var r := wrapped.Let(Double);
    result := r.Value();
  }

  /** With the value `5`, `takeIf(it => it > 3)` and `takeUnless(it => it < 3)`
      return the wrapper itself, while `takeIf(it => it < 3)` and
      `takeUnless(it => it > 3)` return `undefined`. The predicates are false
      on nil by the model's choice (JavaScript's `null < 3` is true); the tests
      only compare `5`. */
  method FiltersOnFive() returns (wrapped: Wrapped<int>, a: Wrapped?<int>, b: Wrapped?<int>,
                                  c: Wrapped?<int>, d: Wrapped?<int>)
    ensures a == wrapped && b == null
    ensures c == wrapped && d == null
  {
    wrapped := new Wrapped(Val(5));
    a := wrapped.TakeIf((x: Nullable<int>) => x.Val? && x.v > 3);
    b := wrapped.TakeIf((x: Nullable<int>) => x.Val? && x.v < 3);
    c := wrapped.TakeUnless((x: Nullable<int>) => x.Val? && x.v < 3);
    d := wrapped.TakeUnless((x: Nullable<int>) => x.Val? && x.v > 3);
  }

  /** `also(spy)` on the wrapper of `5` calls `spy` once, with `5`, and returns
      that same wrapper. */
  method AlsoCallsWithFive() returns (result: Chain.State<int>)
    ensures result.cur == Val(Chain.Inst(0, Val(5)))
    ensures result.calls == [Chain.Applied(Val(5))]
  {
    var wrapped := Chain.Inst(0, Val(5));
    result := Chain.Run([Chain.Also], Chain.State(Val(wrapped), 1, []));
  }

  /** `takeIfNotNil()` returns the wrapper of `5` itself and `undefined` for
      the wrapper of `null`. */
  method TakeIfNotNilOnFiveAndNull() returns (five: Wrapped<int>, a: Wrapped?<int>, b: Wrapped?<int>)
    ensures a == five && b == null
  {
    five := new Wrapped(Val(5));
    var none := new Wrapped<int>(Nil);
    a := five.TakeIfNotNil();
    b := none.TakeIfNotNil();
  }

  /** On `null` the defaults yield `10`; on `5`, `orDefault(10)` and
      `orElse(() => 10)` return the wrapper itself and the getters yield `5`. */
  method DefaultsOnNullAndFive() returns (five: Wrapped<int>, viaOrDefault: Nullable<int>,
                                          viaOrElse: Nullable<int>, same1: Wrapped<int>,
                                          same2: Wrapped<int>, got: seq<int>)
    ensures viaOrDefault == Val(10) && viaOrElse == Val(10)
    ensures same1 == five && same2 == five
    ensures got == [10, 5, 10, 5]
  {
    var none := new Wrapped<int>(Nil);
    five := new Wrapped(Val(5));
    var r1 := none.OrDefault(10);
    viaOrDefault := r1.Value();
    var r2 := none.OrElse(() => 10);
    viaOrElse := r2.Value();
    same1 := five.OrDefault(10);
    same2 := five.OrElse(() => 10);
    got := [none.GetOrDefault(10), five.GetOrDefault(10),
            none.GetOrElse(() => 10), five.GetOrElse(() => 10)];
  }

  /** `wrap(5).value` is `5`. */
  method WrapFive() returns (v: Nullable<int>)
    ensures v == Val(5)
  {
    var w := Wrap(Val(5));
    v := w.Value();
  }
}

=== FILE: wrapper.dfy ===
/** The class `Wrapped<T>` and the factory `wrap` of src/index.ts.

    A wrapper is an object with one immutable slot. Returning the receiver is
    `r == this`, constructing a wrapper is `fresh(r)`, and `undefined` is a
    `null` reference. `TakeIf`, `TakeUnless`, `TakeIfNotNil`, `OrDefault` and
    `OrElse` realise the matching outcome computed in module `Combinators`; the
    contracts of `Let`, `Also` and `Wrap` are stated directly.
 */
module Wrapper {
  import opened Nullish
  import C = Combinators

  class Wrapped<T> {
    /** The wrapped value, set once by the constructor. */
    const val: Nullable<T>

    constructor (val: Nullable<T>)
      ensures this.val == val
    {
      this.val := val;
    }

    /** The `value` getter. */
    function Value(): Nullable<T> {
      val
    }

    /** `r` is what outcome `ret` describes, read from this receiver. */
    ghost predicate Realises(r: Wrapped?<T>, ret: C.Ret<T>) {
      match ret
      case Same => r == this
      case Absent => r == null
      case Fresh(x) => r != null && r != this && r.val == x
    }

    /** `let(fn)`: a new wrapper holding `fn` of the value; the receiver keeps
        its value, its slot being immutable. */
    method Let<U>(fn: Nullable<T> -> Nullable<U>) returns (r: Wrapped<U>)
      ensures fresh(r)
      ensures r.Value() == fn(Value())
    {
      r := new Wrapped(fn(val));
    }

    /** `also(fn)`: calls `fn` with the value and returns the receiver itself.
        The callback's result is discarded. */
    method Also(fn: Nullable<T> -> ()) returns (r: Wrapped<T>)
      ensures r == this
    {
      var _ := fn(val);
      r := this;
    }

    /** `takeIf(p)`: the receiver itself when `p` holds of the value, else
        `undefined`. */
    method TakeIf(p: Nullable<T> -> bool) returns (r: Wrapped?<T>)
      ensures r == this <==> p(Value())
      ensures r == null <==> !p(Value())
      ensures Realises(r, C.TakeIf(val, p))
    {
      if p(val) {
        return this;
      }
      return null;
    }

    /** `takeUnless(p)`: the receiver itself when `p` fails on the value, else
        `undefined`. */
    method TakeUnless(p: Nullable<T> -> bool) returns (r: Wrapped?<T>)
      ensures r == this <==> !p(Value())
      ensures r == null <==> p(Value())
      ensures Realises(r, C.TakeUnless(val, p))
    {
      if p(val) {
        return null;
      }
      return this;
    }

    /** `takeIfNotNil()`: `undefined` exactly when the value is nil, otherwise
        the receiver itself, whose value is then present. */
    method TakeIfNotNil() returns (r: Wrapped?<T>)
      ensures r == null <==> IsNil(Value())
      ensures r != null ==> r == this && !IsNil(r.Value())
      ensures Realises(r, C.TakeIfNotNil(val))
    {
      if IsNil(val) {
        return null;
      }
      return this;
    }

    /** `orDefault(d)`: a new wrapper holding `d` when the value is nil,
        otherwise the receiver itself; the result's value is never nil. */
    method OrDefault(d: T) returns (r: Wrapped<T>)
      ensures IsNil(Value()) ==> fresh(r) && r.Value() == Val(d)
      ensures !IsNil(Value()) ==> r == this
      ensures !IsNil(r.Value())
      ensures Realises(r, C.OrDefault(val, d))
    {
      if IsNil(val) {
        r := new Wrapped(Val(d));
      } else {
        r := this;
      }
    }

    /** `orElse(f)`: a new wrapper holding `f()` when the value is nil,
        otherwise the receiver itself, and `f` is not called. */
    method OrElse(f: () -> T) returns (r: Wrapped<T>)
      ensures IsNil(Value()) ==> fresh(r) && r.Value() == Val(f())
      ensures !IsNil(Value()) ==> r == this
      ensures !IsNil(r.Value())
      ensures Realises(r, C.OrElse(val, f))
    {
      if IsNil(val) {
        r := new Wrapped(Val(f()));
      } else {
        r := this;
      }
    }

    /** `getOrDefault(d)`: the present value, or `d` when the value is nil. */
    function GetOrDefault(d: T): (r: T)
      ensures !IsNil(Value()) ==> Val(r) == Value()
      ensures IsNil(Value()) ==> r == d
    {
      C.GetOrDefault(val, d)
    }

    /** `getOrElse(f)`: the present value, or `f()` when the value is nil. */
    function GetOrElse(f: () -> T): (r: T)
      ensures !IsNil(Value()) ==> Val(r) == Value()
      ensures IsNil(Value()) ==> r == f()
    {
      C.GetOrElse(val, f)
    }
  }

  /** `wrap(v)`: a new wrapper whose `value` reads back `v`. */
  method Wrap<T>(v: Nullable<T>) returns (w: Wrapped<T>)
    ensures fresh(w)
    ensures w.Value() == v
  {
    w := new Wrapped(v);
  }

  /** Reading `getOrDefault(d)` gives the value of the wrapper `orDefault(d)`
      returns, whichever branch is taken. */
  method GetOrDefaultMatchesOrDefault<T>(w: Wrapped<T>, d: T) returns (r: Wrapped<T>)
    ensures Val(w.GetOrDefault(d)) == r.Value()
    ensures w.Realises(r, C.OrDefault(w.val, d))
  {
    r := w.OrDefault(d);
  }

  /** Reading `getOrElse(f)` gives the value of the wrapper `orElse(f)`
      returns, whichever branch is taken. */
  method GetOrElseMatchesOrElse<T>(w: Wrapped<T>, f: () -> T) returns (r: Wrapped<T>)
    ensures Val(w.GetOrElse(f)) == r.Value()
    ensures w.Realises(r, C.OrElse(w.val, f))
  {
    r := w.OrElse(f);
  }

  /** Applying `orDefault` twice: the second call returns the very wrapper the
      first one returned. */
  method OrDefaultTwice<T>(w: Wrapped<T>, d: T, d': T) returns (r1: Wrapped<T>, r2: Wrapped<T>)
    ensures r2 == r1
    ensures !IsNil(r2.Value())
  {
    r1 := w.OrDefault(d);
    r2 := r1.OrDefault(d');
  }
}
